=== FILE: README.md ===
# Stale test-resource cleanup of the Compute Engine samples, in Dafny

The Compute Engine samples share a test utility, `compute/Util.java`. Its
cleanup routines remove test resources that earlier runs left behind. There
are three sweeps: instance templates, instances, and reservations. Each sweep
walks one listing. A resource is selected when its name contains the test
prefix and it was created more than 24 hours ago. Templates must also be
initialized, and instances must have status "RUNNING", ignoring case. The
selected resources are deleted one after another. The same utility has three
small helpers, which are modelled too: reading an environment variable with
a default, picking a random test zone from a comma-separated list, and
building the 32-character key string behind the test encryption keys.

Files and modules:

- `java_string.dfy` (module `JavaString`): the `java.lang.String` operations
  the rules rely on, with Java's semantics. `contains` is a left-to-right scan.
  `trim` strips every character at or below U+0020. `split(",")` returns the
  whole string when there is no comma and drops trailing empty pieces
  otherwise. `equalsIgnoreCase` uses the character test of `regionMatches`.
- `resources.dfy` (modules `Options`, `Resources`): resource descriptors, the
  delete actions, delete outcomes, sweep results, and the strict 24-hour
  staleness rule. Instants are integer nanoseconds and arrive already parsed.
- `cleanup.dfy` (module `Cleanup`): the selection rules and the plan of each
  sweep, which is the ordered list of deletes. It also holds `Run`, which
  sends a plan and stops at the first outcome the sweep does not absorb. The
  reservation sweep, which parses timestamps between deletes, is written out
  on its own. The nested instance loop is a method proved equal to the
  functional sweep.
- `test_zones.dfy` (module `TestZones`): `getEnvVar` and `getZone`.
- `encryption_key.dfy` (module `EncryptionKey`): the key string built before
  Base64 encoding.

The listings, the clock, the delete outcomes and the random choices are
inputs. A listing is a sequence of descriptors. The clock is a `now` instant.
Delete outcomes are a function from delete action to `Deleted`, `NotFound` or
`Failed`. Random picks are nondeterministic choices (`:|`).

Behaviour of the code worth noting:

- A reservation has no `hasCreationTimestamp` guard. When its name matches,
  its empty timestamp goes to the parser, which throws and ends the sweep
  (`Cleanup.CleanUpReservations`). Only templates and instances without a
  timestamp are quietly skipped.
- An unset variable falls back to the default. A variable set to exactly ""
  never does: `trim` returns the value itself, which is not the `""` literal
  the blank check compares with by reference. A longer blank value may fall
  back or not, depending on whether the runtime's `trim` returns the literal
  (`TestZones.GetEnvVar`).
- An empty zone setting does not give "unknown", nor does a variable set to "". `"".split(",")` is `[""]`, so
  the zone is the empty string. Only settings made of commas alone give
  "unknown".
- The source comments say the resource name "starts with" the prefix. The code
  tests `contains`, and so does the model.
- Running the reservation sweep a second time still sends a delete for every
  stale reservation that is still listed. The sweep completes because
  NotFound is absorbed, not because no delete is sent.

## Model

| member | source | states |
|---|---|---|
| JavaString.Contains | compute/cloud-client/src/test/java/compute/Util.java:69 | the empty prefix is contained in every name, and a name can contain only a prefix no longer than itself |
| JavaString.ContainsIffOccurs | compute/cloud-client/src/test/java/compute/Util.java:69 | the name test used by all three sweeps holds exactly when the prefix occurs at some position of the name |
| JavaString.Trim | compute/cloud-client/src/test/java/compute/Util.java:177 | the result has no character at or below U+0020 at either end, and it is a slice of the input with only such characters cut off both sides |
| JavaString.FirstKept | compute/cloud-client/src/test/java/compute/Util.java:177 | the front scan of trim stops at the first character above U+0020, or at the end; everything it passed over is blank |
| JavaString.LastKept | compute/cloud-client/src/test/java/compute/Util.java:177 | the back scan of trim never crosses the front position, stops after the last character above U+0020, and everything it passed over is blank |
| JavaString.TrimStripsPadding | compute/cloud-client/src/test/java/compute/Util.java:177 | trimming a non-empty trimmed core with any blank padding on either side gives back exactly that core |
| JavaString.TrimOfTrimmed | compute/cloud-client/src/test/java/compute/Util.java:177 | trim leaves a string with no blank at either end unchanged |
| JavaString.Pieces | compute/cloud-client/src/test/java/compute/Util.java:173 | cutting at every comma gives at least one piece, no piece contains a comma, and joining the pieces with commas rebuilds the input |
| JavaString.PiecesOfJoin | compute/cloud-client/src/test/java/compute/Util.java:173 | cutting comma-free pieces that were joined with commas gives back those pieces, so cutting and joining are inverse |
| JavaString.DropTrailingEmpty | compute/cloud-client/src/test/java/compute/Util.java:173 | the result is a prefix of the list, everything dropped is empty, and the last kept element is not empty |
| JavaString.Split | compute/cloud-client/src/test/java/compute/Util.java:173 | split(",") returns a comma-free list; without a comma it is the whole string, even an empty one; with a comma it is the comma pieces with exactly the trailing empty pieces removed: a prefix of the pieces, every dropped piece empty, and the last kept element non-empty |
| JavaString.SplitEmptyIffOnlyCommas | compute/cloud-client/src/test/java/compute/Util.java:173-176 | split(",") yields zero elements exactly when the string is one or more commas and nothing else |
| JavaString.CharsEqualIgnoreCase | compute/cloud-client/src/test/java/compute/Util.java:90 | a character matches itself, and two ASCII letters match exactly when they are the same letter in either case |
| JavaString.EqualsIgnoreCase | compute/cloud-client/src/test/java/compute/Util.java:90 | strings of different lengths never match ignoring case, and equal strings always do |
| JavaString.CharMatchesCapitalIff | compute/cloud-client/src/test/java/compute/Util.java:90 | a character equals a capital ASCII letter ignoring case exactly when it is that letter, its small form, or a non-ASCII character Java folds onto it (dotless or dotted i, long s, Kelvin sign) |
| Resources.IsCreatedBeforeThresholdTime | compute/cloud-client/src/test/java/compute/Util.java:125-128 | a resource is stale exactly when it was created more than 24 hours before now |
| Resources.StalenessBoundary | compute/cloud-client/src/test/java/compute/Util.java:125-128 | the threshold is strict: created exactly 24 hours before now is kept, one nanosecond or one second earlier is stale, and one second later is kept |
| Resources.StalenessPersists | compute/cloud-client/src/test/java/compute/Util.java:125-128 | a resource that is stale at some time stays stale at every later time |
| Cleanup.SelectsTemplate | compute/cloud-client/src/test/java/compute/Util.java:66-71 | a selected template has a creation time more than 24 hours before now, a name at least as long as the prefix, and is initialized |
| Cleanup.SelectsInstance | compute/cloud-client/src/test/java/compute/Util.java:85-90 | a selected instance has a creation time more than 24 hours before now, a name at least as long as the prefix, and a seven-character status |
| Cleanup.SelectsReservation | compute/cloud-client/src/test/java/compute/Util.java:198-199 | a selected reservation has a creation time more than 24 hours before now and a name at least as long as the prefix |
| Cleanup.Plan | compute/cloud-client/src/test/java/compute/Util.java:64-74 | every delete is the action of a selected listed element, every selected element gets its delete, and there are no more deletes than listed elements |
| Cleanup.PlanAppend | compute/cloud-client/src/test/java/compute/Util.java:64-74 | the plan of a concatenated listing is the plan of the first part followed by the plan of the second, so deletes follow listing order with at most one per element |
| Cleanup.PlanSkips | compute/cloud-client/src/test/java/compute/Util.java:64-74 | an element the rule does not select can be removed from anywhere in the listing without changing the plan |
| Cleanup.TemplatePlan | compute/cloud-client/src/test/java/compute/Util.java:64-74 | every template delete names the caller's project and a template whose name contains the prefix that has a timestamp, is stale and is initialized; every such listed template is deleted |
| Cleanup.TemplateWithoutTimestampSkipped | compute/cloud-client/src/test/java/compute/Util.java:66-68 | a template without a creation timestamp leaves the plan unchanged wherever it is listed |
| Cleanup.TemplateAtThresholdKept | compute/cloud-client/src/test/java/compute/Util.java:70 | a template created exactly at now minus 24 hours leaves the plan unchanged wherever it is listed |
| Cleanup.Flatten | compute/cloud-client/src/test/java/compute/Util.java:82-84 | an instance is in the flattened list exactly when it is in some group of the aggregated listing |
| Cleanup.FlattenAppend | compute/cloud-client/src/test/java/compute/Util.java:82-84 | flattening visits the groups in order: the flattening of concatenated listings is the concatenation of their flattenings |
| Cleanup.FlattenIgnoresScopes | compute/cloud-client/src/test/java/compute/Util.java:82-84 | listings with the same instance lists and different group keys flatten to the same instances |
| Cleanup.InstanceDeletes | compute/cloud-client/src/test/java/compute/Util.java:84-93 | every instance delete carries the caller's project and zone and the name of a listed, selected instance; every selected instance is deleted |
| Cleanup.InstanceDeletesAppend | compute/cloud-client/src/test/java/compute/Util.java:84-93 | instance deletes for concatenated lists are the deletes of each part in order |
| Cleanup.InstancePlan | compute/cloud-client/src/test/java/compute/Util.java:82-91 | the instance sweep considers every instance of every group; each delete uses the caller-supplied zone, never a group key, and names a selected instance |
| Cleanup.InstancePlanIgnoresScopes | compute/cloud-client/src/test/java/compute/Util.java:82-91 | renaming the group keys of the aggregated listing does not change which deletes are sent |
| Cleanup.InstanceWithoutTimestampSkipped | compute/cloud-client/src/test/java/compute/Util.java:85-87 | an instance without a creation timestamp leaves the deletes unchanged wherever it is listed |
| Cleanup.InstanceNotRunningSkipped | compute/cloud-client/src/test/java/compute/Util.java:90 | an instance whose status is not "RUNNING" ignoring case is never deleted, however old |
| Cleanup.RunningSpellings | compute/cloud-client/src/test/java/compute/Util.java:90 | a status counts as running exactly when it has seven characters, each a spelling of the matching letter of "RUNNING" (the fifth may also be a dotless small i, U+0131, or a dotted capital I, U+0130) |
| Cleanup.ReservationPlan | compute/cloud-client/src/test/java/compute/Util.java:198-199 | every reservation delete carries the caller's project and zone and names a listed stale reservation whose name contains the prefix; every such reservation is deleted |
| Cleanup.Run | compute/cloud-client/src/test/java/compute/Util.java:72 | the deletes sent are a prefix of the plan; the sweep completes exactly when it sent the whole plan and every outcome was absorbed; otherwise the last delete sent is the first unabsorbed one and is the reported failure |
| Cleanup.RunStopsAtFailure | compute/cloud-client/src/test/java/compute/Util.java:91 | after absorbed deletes, the first failing delete ends the sweep whatever is planned after it |
| Cleanup.CleanUpTemplates | compute/cloud-client/src/test/java/compute/Util.java:62-75 | the deletes sent are a prefix of the plan, so they follow listing order and stay inside the filter; the sweep completes exactly when every planned delete succeeds, and then it has sent the whole plan; otherwise the last delete sent answered NotFound or another failure, that delete and the outcome it actually got are reported, and every earlier delete succeeded |
| Cleanup.CleanUpInstances | compute/cloud-client/src/test/java/compute/Util.java:79-95 | the deletes sent are a prefix of the plan; the sweep completes exactly when every planned delete succeeds, and then it has sent the whole plan; otherwise the last delete sent did not succeed, that delete and the outcome it actually got are reported, and every earlier delete succeeded |
| Cleanup.SameNameInTwoScopes | compute/cloud-client/src/test/java/compute/Util.java:82-91 | every delete goes to the caller's zone, so a selected name listed under two scopes is planned for deletion twice with the same request |
| Cleanup.SweepGroup | compute/cloud-client/src/test/java/compute/Util.java:84-93 | the inner loop over one group either gets through it, having sent the deletes planned up to the group's end, all successful, or stops with the result of the whole sweep |
| Cleanup.CleanUpExistingInstances | compute/cloud-client/src/test/java/compute/Util.java:79-95 | the nested loop over groups and instances, with its early exit on a failed delete, gives the same result as the functional instance sweep |
| Cleanup.CleanUpReservations | compute/cloud-client/src/test/java/compute/Util.java:190-208 | the deletes sent are a prefix of the plan, each naming a selected reservation; a completed sweep sent exactly the plan, and no name-matched reservation lacked a timestamp; only a Failed delete ends it as a delete failure, since NotFound is absorbed, and that delete is the last one sent; a parse failure names the first name-matched reservation without a timestamp, after exactly the deletes planned for the reservations before it |
| Cleanup.ReservationSweepRunsPlan | compute/cloud-client/src/test/java/compute/Util.java:194-206 | when every name-matched reservation has a timestamp, the reservation sweep is its plan run with NotFound absorbed |
| Cleanup.ReservationSweepStopsAtUnparsable | compute/cloud-client/src/test/java/compute/Util.java:194-206 | when the first name-matched reservation without a timestamp is at position i, the sweep runs the plan of the reservations before i with NotFound absorbed; a failed delete there ends it first, and otherwise the parse at i ends it |
| Cleanup.RepeatedReservationSweepSucceeds | compute/cloud-client/src/test/java/compute/Util.java:200-204 | when every delete answers NotFound, as on a second pass, the reservation sweep sends its whole plan and completes without error |
| Cleanup.RepeatedTemplateSweepFails | compute/cloud-client/src/test/java/compute/Util.java:72 | when every delete answers NotFound, the template sweep stops at its first delete and reports NotFound |
| EncryptionKey.SampleSpaceAt | compute/cloud-client/src/test/java/compute/Util.java:131 | position k of the sample space holds the k-th digit, then capital letter, then small letter |
| EncryptionKey.IndexOf | compute/cloud-client/src/test/java/compute/Util.java:131 | every alphanumeric character occurs in the sample space, at the returned position |
| EncryptionKey.SampleSpaceIsAlphanumeric | compute/cloud-client/src/test/java/compute/Util.java:131 | the sample space has 62 characters, all alphanumeric and pairwise distinct, since each sits at its own index |
| EncryptionKey.KeyString | compute/cloud-client/src/test/java/compute/Util.java:134-136 | the string built from a sequence of draws has one character per draw, each alphanumeric |
| EncryptionKey.Draws | compute/cloud-client/src/test/java/compute/Util.java:134-136 | every alphanumeric string has a sequence of valid draws of the same length |
| EncryptionKey.KeyStringRoundTrip | compute/cloud-client/src/test/java/compute/Util.java:134-136 | draws and key strings are in one-to-one correspondence: building from the draws of a key gives the key, and taking the draws of a built key gives the draws |
| EncryptionKey.GenerateKey | compute/cloud-client/src/test/java/compute/Util.java:130-137 | the key string is exactly 32 characters long, each character alphanumeric, and it is the key string of 32 valid draws |
| TestZones.GetEnvVar | compute/cloud-client/src/test/java/compute/Util.java:180-186 | an unset variable yields the default; a set value that is not blank is returned as is; a value of exactly "" is returned as ""; a longer blank value yields the default when the runtime's trim returns the "" literal and itself otherwise |
| TestZones.EmptyVariableKept | compute/cloud-client/src/test/java/compute/Util.java:171-186 | a variable set to "" reaches getZone unchanged, so the empty zone name is the only candidate and the defaults are not used |
| TestZones.ZoneCandidates | compute/cloud-client/src/test/java/compute/Util.java:173-177 | one candidate per split element, each trimmed and comma-free; there are none exactly when the setting is only commas |
| TestZones.GetZone | compute/cloud-client/src/test/java/compute/Util.java:171-178 | returns "unknown" when the split yields nothing and otherwise one of the candidates, which is the trimmed split element at some index |
| TestZones.SplitOfJoin | compute/cloud-client/src/test/java/compute/Util.java:173 | splitting two or more comma-free names joined by commas, the last one non-empty, gives back the names |
| TestZones.CandidatesOfJoin | compute/cloud-client/src/test/java/compute/Util.java:173-177 | a setting of one or more non-empty trimmed names joined by commas (a single name has no comma) offers exactly those names |
| TestZones.DefaultCandidates | compute/cloud-client/src/test/java/compute/Util.java:58 | with the variable unset the candidates are exactly us-central1-a, us-west1-a and asia-south1-a, in that order |
| TestZones.ThreeZoneSetting | compute/cloud-client/src/test/java/compute/Util.java:171-178 | the setting "a,b,c" offers exactly "a", "b" and "c" |
| TestZones.PaddedSetting | compute/cloud-client/src/test/java/compute/Util.java:177 | blanks around the commas are trimmed: " a , b " offers exactly a and b |
| TestZones.LoneCommaHasNoCandidate | compute/cloud-client/src/test/java/compute/Util.java:173-176 | the setting "," offers no zone, so getZone answers "unknown" |
| TestZones.EmptySettingGivesEmptyZone | compute/cloud-client/src/test/java/compute/Util.java:173-177 | an empty setting offers the single empty zone name, not "unknown" |

## Left out

- Listing and pagination are left out. The two filtered listings (`listFilteredInstances`, `listFilteredInstanceTemplates`) and the reservation listing are given as input sequences. Their server-side `name:` filter is not modelled, because the sweeps test the name again themselves.
- The delete calls and the `DeleteInstanceTemplate`, `DeleteInstance` and `DeleteReservation` classes are not part of this model. Each delete becomes an action, and its outcome is an input.
- `getInstanceStatus`, `getInstance`, `getDisk` and `getRegionalDisk` are left out. Each is a single remote read through the vendor SDK.
- Client creation and closing (`try`-with-resources) are left out. They are resource management in the vendor SDK.
- `OffsetDateTime.parse` is left out, so timestamps arrive as instants. A malformed timestamp string cannot be represented. A reservation's missing timestamp is the one parse failure that is modelled.
- Clock: the source reads `Instant.now()` again for every descriptor, but the model uses one `now` per sweep. `Resources.StalenessPersists` shows that a later reading never un-selects a stale resource. A resource that becomes stale during the sweep is not modelled.
- `Instant.minus` throws outside the `Instant` range. That overflow is not modelled, because instants are unbounded integers.
- The reservation loop lists the reservations again on every step and stops when that second listing is empty (Util.java:195). The model works on one snapshot, so that check never fires while a non-empty list is being walked.
- The `System.err.println` message printed when a reservation delete answers NotFound (Util.java:203) is left out. It is logging only, and the sweep goes on either way.
- Base64 encoding of the key, and the `SecureRandom` and `Random` generators, are left out. Random picks are nondeterministic choices.
- EncryptionKey.GenerateKey: states the length and alphabet of the key, not that the characters are uniformly distributed, because randomness is modelled as nondeterministic choice.
- Delete outcomes are a fixed function of the delete request, so sending the same request twice gets the same answer. The service would answer the second one with NotFound, because the first removed the resource. The instance sweep can send the same request twice (`Cleanup.SameNameInTwoScopes`): every delete goes to the caller's zone, whatever scope the instance was listed under. A second delete that finds nothing, and the resulting early end of the instance sweep, are therefore not modelled.
- TestZones.GetZone: states which zones can be returned, not that the choice is uniform, for the same reason.
- TestZones.GetEnvVar: whether `trim()` returns the interned "" literal for a non-empty blank value depends on the Java runtime. It is a boolean input, so the contract does not decide whether such a value falls back.
- JavaString.CharsEqualIgnoreCase: the case maps cover only characters whose mapping lands on an ASCII letter. The comparison is exact when one side is ASCII, as "RUNNING" is. Full Unicode case tables are not modelled.
- The Security Command Center custom-module samples and the TPU queued-resource deletion sample are left out. Each builds one request for a vendor client and sends it, with no local logic beyond formatting resource names. The TPU retry settings are vendor SDK configuration.

=== FILE: cleanup.dfy ===
/**
 The three cleanup sweeps of the compute test utilities. Each sweep looks at
 one snapshot of a listing, selects the leftover test resources (name contains
 the prefix, created more than 24 hours ago, plus a per-kind condition) and
 deletes them one after another, in listing order.

 A sweep is modelled in two steps: `...Plan` is the ordered list of deletes the
 selection rule yields, and `Run` sends them, stopping at the first delete whose
 outcome the sweep does not absorb. The reservation sweep interleaves a
 timestamp parse with its deletes and is written out directly.
 */
module Cleanup {
  import opened Options
  import opened Resources
  import opened JavaString

  const Running: string := "RUNNING"

  // ---------------------------------------------------------------------------
  // Selection rules
  // ---------------------------------------------------------------------------

  /** A template is deleted when it has a creation time, its name contains the
      prefix, it is stale, and it is initialized. */
  predicate SelectsTemplate(prefix: string, now: Instant, t: InstanceTemplate)
    ensures SelectsTemplate(prefix, now, t) ==>
              t.creation.Some? && now - t.creation.value > 24 * NanosPerHour && |prefix| <= |t.name| && t.initialized
  {
    && t.creation.Some?
    && Contains(t.name, prefix)
    && IsCreatedBeforeThresholdTime(t.creation.value, now)
    && t.initialized
  }

  /** An instance is deleted when it has a creation time, its name contains the
      prefix, it is stale, and its status is "RUNNING" ignoring case. */
  predicate SelectsInstance(prefix: string, now: Instant, x: Instance)
    ensures SelectsInstance(prefix, now, x) ==>
              x.creation.Some? && now - x.creation.value > 24 * NanosPerHour && |prefix| <= |x.name| && |x.status| == |Running|
  {
    && x.creation.Some?
    && Contains(x.name, prefix)
    && IsCreatedBeforeThresholdTime(x.creation.value, now)
    && EqualsIgnoreCase(x.status, Running)
  }

  /** A reservation is deleted when its name contains the prefix and it is stale. */
  predicate SelectsReservation(prefix: string, now: Instant, x: Reservation)
    ensures SelectsReservation(prefix, now, x) ==>
              x.creation.Some? && now - x.creation.value > 24 * NanosPerHour && |prefix| <= |x.name|
  {
    && x.creation.Some?
    && Contains(x.name, prefix)
    && IsCreatedBeforeThresholdTime(x.creation.value, now)
  }

  // ---------------------------------------------------------------------------
  // Plans: the selected deletes, in listing order
  // ---------------------------------------------------------------------------

  /** One delete per selected element of the listing, in listing order. */
  function Plan<T>(listing: seq<T>, selects: T -> bool, action: T -> Delete): (r: seq<Delete>)
    ensures |r| <= |listing|
    ensures forall d :: d in r ==> exists x :: x in listing && selects(x) && d == action(x)
    ensures forall x :: x in listing && selects(x) ==> action(x) in r
    decreases |listing|
  {
    if |listing| == 0 then []
    else
      var rest := Plan(listing[1..], selects, action);
      if selects(listing[0]) then [action(listing[0])] + rest else rest
  }

  /** Planning a concatenated listing plans each part in turn: the plan keeps
      listing order and sends at most one delete per listed element. */
  lemma {:induction false} PlanAppend<T>(a: seq<T>, b: seq<T>, selects: T -> bool, action: T -> Delete)
    ensures Plan(a + b, selects, action) == Plan(a, selects, action) + Plan(b, selects, action)
    decreases |a|
  {
    if |a| > 0 {
      assert (a + b)[0] == a[0];
      assert (a + b)[1..] == a[1..] + b;
      PlanAppend(a[1..], b, selects, action);
    } else {
      assert a + b == b;
    }
  }

  /** An element the rule does not select changes nothing in the plan. */
  lemma PlanSkips<T>(a: seq<T>, x: T, b: seq<T>, selects: T -> bool, action: T -> Delete)
    requires !selects(x)
    ensures Plan(a + [x] + b, selects, action) == Plan(a + b, selects, action)
  {
    PlanAppend(a + [x], b, selects, action);
    PlanAppend(a, [x], selects, action);
    PlanAppend(a, b, selects, action);
  }

  function TemplatePlan(prefix: string, project: string, now: Instant, listing: seq<InstanceTemplate>): (r: seq<Delete>)
    ensures |r| <= |listing|
    ensures forall d :: d in r ==> d.DeleteInstanceTemplate? && d.project == project && Contains(d.name, prefix)
    ensures forall d :: d in r ==>
              exists t :: t in listing && SelectsTemplate(prefix, now, t) && d == DeleteInstanceTemplate(project, t.name)
    ensures forall t :: t in listing && SelectsTemplate(prefix, now, t) ==> DeleteInstanceTemplate(project, t.name) in r
  {
    Plan(listing, (t: InstanceTemplate) => SelectsTemplate(prefix, now, t), (t: InstanceTemplate) => DeleteInstanceTemplate(project, t.name))
  }

  /** The instances of an aggregated listing, group after group. */
  function Flatten(groups: seq<ZoneGroup>): (r: seq<Instance>)
    ensures forall x :: x in r <==> exists g :: g in groups && x in g.instances
    decreases |groups|
  {
    if |groups| == 0 then [] else groups[0].instances + Flatten(groups[1..])
  }

  lemma {:induction false} FlattenAppend(a: seq<ZoneGroup>, b: seq<ZoneGroup>)
    ensures Flatten(a + b) == Flatten(a) + Flatten(b)
    decreases |a|
  {
    if |a| > 0 {
      assert (a + b)[0] == a[0];
      assert (a + b)[1..] == a[1..] + b;
      FlattenAppend(a[1..], b);
    } else {
      assert a + b == b;
    }
  }

  /** Flattening ignores the scope keys: only the instance lists matter. */
  lemma {:induction false} FlattenIgnoresScopes(groups: seq<ZoneGroup>, other: seq<ZoneGroup>)
    requires |groups| == |other|
    requires forall k :: 0 <= k < |groups| ==> groups[k].instances == other[k].instances
    ensures Flatten(groups) == Flatten(other)
    decreases |groups|
  {
    if |groups| > 0 {
      FlattenIgnoresScopes(groups[1..], other[1..]);
    }
  }

  /** The deletes for a flat list of instances. Every one names the zone the
      caller passed in. */
  function InstanceDeletes(prefix: string, project: string, zone: string, now: Instant, instances: seq<Instance>): (r: seq<Delete>)
    ensures |r| <= |instances|
    ensures forall d :: d in r ==> d == DeleteInstance(project, zone, d.name) && Contains(d.name, prefix)
    ensures forall d :: d in r ==>
              exists x :: x in instances && SelectsInstance(prefix, now, x) && d == DeleteInstance(project, zone, x.name)
    ensures forall x :: x in instances && SelectsInstance(prefix, now, x) ==> DeleteInstance(project, zone, x.name) in r
  {
    Plan(instances, (x: Instance) => SelectsInstance(prefix, now, x), (x: Instance) => DeleteInstance(project, zone, x.name))
  }

  lemma InstanceDeletesAppend(prefix: string, project: string, zone: string, now: Instant, a: seq<Instance>, b: seq<Instance>)
    ensures InstanceDeletes(prefix, project, zone, now, a + b)
         == InstanceDeletes(prefix, project, zone, now, a) + InstanceDeletes(prefix, project, zone, now, b)
  {
    PlanAppend(a, b, (x: Instance) => SelectsInstance(prefix, now, x), (x: Instance) => DeleteInstance(project, zone, x.name));
  }

  /** The deletes of the instance sweep: every instance of every group is
      considered, and each delete uses the caller's zone, never the group key. */
  function InstancePlan(prefix: string, project: string, zone: string, now: Instant, groups: seq<ZoneGroup>): (r: seq<Delete>)
    ensures forall d :: d in r ==> d == DeleteInstance(project, zone, d.name) && Contains(d.name, prefix)
    ensures forall d :: d in r ==>
              exists g, x :: g in groups && x in g.instances && SelectsInstance(prefix, now, x) && d.name == x.name
    ensures forall g, x :: g in groups && x in g.instances && SelectsInstance(prefix, now, x) ==>
              DeleteInstance(project, zone, x.name) in r
  {
    InstanceDeletes(prefix, project, zone, now, Flatten(groups))
  }

  /** Renaming the scope keys of an aggregated listing does not change the plan. */
  lemma InstancePlanIgnoresScopes(prefix: string, project: string, zone: string, now: Instant,
                                  groups: seq<ZoneGroup>, other: seq<ZoneGroup>)
    requires |groups| == |other|
    requires forall k :: 0 <= k < |groups| ==> groups[k].instances == other[k].instances
    ensures InstancePlan(prefix, project, zone, now, groups) == InstancePlan(prefix, project, zone, now, other)
  {
    FlattenIgnoresScopes(groups, other);
  }

  /** Every delete goes to the caller's zone, so a selected instance name
      listed under two scopes yields the same delete twice. */
  lemma SameNameInTwoScopes(prefix: string, project: string, zone: string, now: Instant,
                            a: string, b: string, x: Instance)
    requires SelectsInstance(prefix, now, x)
    ensures var d := DeleteInstance(project, zone, x.name);
            InstancePlan(prefix, project, zone, now, [ZoneGroup(a, [x]), ZoneGroup(b, [x])]) == [d, d]
  {
    var groups := [ZoneGroup(a, [x]), ZoneGroup(b, [x])];
    assert Flatten(groups) == [x, x] by {
      FlattenAppend([groups[0]], [groups[1]]);
      assert groups == [groups[0]] + [groups[1]];
    }
    InstanceDeletesAppend(prefix, project, zone, now, [x], [x]);
  }

  function ReservationPlan(prefix: string, project: string, zone: string, now: Instant, listing: seq<Reservation>): (r: seq<Delete>)
    ensures |r| <= |listing|
    ensures forall d :: d in r ==> d == DeleteReservation(project, zone, d.name) && Contains(d.name, prefix)
    ensures forall d :: d in r ==>
              exists x :: x in listing && SelectsReservation(prefix, now, x) && d == DeleteReservation(project, zone, x.name)
    ensures forall x :: x in listing && SelectsReservation(prefix, now, x) ==> DeleteReservation(project, zone, x.name) in r
  {
    Plan(listing, (x: Reservation) => SelectsReservation(prefix, now, x), (x: Reservation) => DeleteReservation(project, zone, x.name))
  }

  // ---------------------------------------------------------------------------
  // What is skipped
  // ---------------------------------------------------------------------------

  /** A template without a creation time is skipped wherever it is listed. */
  lemma TemplateWithoutTimestampSkipped(prefix: string, project: string, now: Instant,
                                        a: seq<InstanceTemplate>, t: InstanceTemplate, b: seq<InstanceTemplate>)
    requires t.creation.None?
    ensures TemplatePlan(prefix, project, now, a + [t] + b) == TemplatePlan(prefix, project, now, a + b)
  {
    PlanSkips(a, t, b, (t: InstanceTemplate) => SelectsTemplate(prefix, now, t), (t: InstanceTemplate) => DeleteInstanceTemplate(project, t.name));
  }

  /** A template created exactly at the threshold time is kept, wherever it
      is listed. */
  lemma TemplateAtThresholdKept(prefix: string, project: string, now: Instant,
                                a: seq<InstanceTemplate>, t: InstanceTemplate, b: seq<InstanceTemplate>)
    requires t.creation == Some(ThresholdTime(now))
    ensures TemplatePlan(prefix, project, now, a + [t] + b) == TemplatePlan(prefix, project, now, a + b)
  {
    PlanSkips(a, t, b, (t: InstanceTemplate) => SelectsTemplate(prefix, now, t), (t: InstanceTemplate) => DeleteInstanceTemplate(project, t.name));
  }

  /** An instance without a creation time is skipped wherever it is listed. */
  lemma InstanceWithoutTimestampSkipped(prefix: string, project: string, zone: string, now: Instant,
                                        a: seq<Instance>, x: Instance, b: seq<Instance>)
    requires x.creation.None?
    ensures InstanceDeletes(prefix, project, zone, now, a + [x] + b) == InstanceDeletes(prefix, project, zone, now, a + b)
  {
    PlanSkips(a, x, b, (x: Instance) => SelectsInstance(prefix, now, x), (x: Instance) => DeleteInstance(project, zone, x.name));
  }

  /** An instance whose status is not "RUNNING" ignoring case is never deleted,
      however old it is. */
  lemma InstanceNotRunningSkipped(prefix: string, project: string, zone: string, now: Instant,
                                  a: seq<Instance>, x: Instance, b: seq<Instance>)
    requires !EqualsIgnoreCase(x.status, Running)
    ensures InstanceDeletes(prefix, project, zone, now, a + [x] + b) == InstanceDeletes(prefix, project, zone, now, a + b)
  {
    PlanSkips(a, x, b, (x: Instance) => SelectsInstance(prefix, now, x), (x: Instance) => DeleteInstance(project, zone, x.name));
  }

  /** Which status strings count as running: seven characters, each a spelling of
      the corresponding letter of "RUNNING"; the fifth may also be a dotless small
      i (U+0131) or a dotted capital I (U+0130), which Java's case mapping
      folds onto 'I'. */
  lemma {:induction false} RunningSpellings(status: string)
    ensures EqualsIgnoreCase(status, Running)
        <==> |status| == 7 && forall k :: 0 <= k < 7 ==> SpellsCapital(status[k], Running[k])
  {
    forall k | 0 <= k < |status| && k < 7
      ensures CharsEqualIgnoreCase(status[k], Running[k]) <==> SpellsCapital(status[k], Running[k])
    {
      CharMatchesCapitalIff(status[k], Running[k]);
    }
  }

  // ---------------------------------------------------------------------------
  // Running a plan
  // ---------------------------------------------------------------------------

  /** Whether the sweep carries on after a delete with this outcome. */
  predicate Absorbed(o: DeleteOutcome, tolerateNotFound: bool) {
    o == Deleted || (tolerateNotFound && o == NotFound)
  }

  /** Every delete in `ds` got an outcome the sweep absorbs. */
  predicate AllAbsorbed(ds: seq<Delete>, outcome: Delete -> DeleteOutcome, tolerateNotFound: bool) {
    forall k :: 0 <= k < |ds| ==> Absorbed(outcome(ds[k]), tolerateNotFound)
  }

  /** What a run of `plan` promises about its result `r`: the deletes sent
      are a prefix of the plan; the run completes exactly when it sent the
      whole plan and every outcome was absorbed; otherwise it failed on the
      last delete sent, with an outcome it does not absorb, after absorbing
      every outcome before it. */
  predicate SentInOrder(plan: seq<Delete>, outcome: Delete -> DeleteOutcome, tolerateNotFound: bool, r: SweepResult) {
    && |r.issued| <= |plan| && r.issued == plan[..|r.issued|]
    && (r.failure.None? <==> r.issued == plan && AllAbsorbed(plan, outcome, tolerateNotFound))
    && (r.failure.Some? ==>
          && |r.issued| > 0
          && var last := r.issued[|r.issued| - 1];
          && r.failure.value == DeleteFailure(last, outcome(last))
          && !Absorbed(outcome(last), tolerateNotFound)
          && AllAbsorbed(r.issued[..|r.issued| - 1], outcome, tolerateNotFound))
  }

  /** Sends the planned deletes in order. The first outcome the sweep does not
      absorb ends it and is reported. */
  function Run(plan: seq<Delete>, outcome: Delete -> DeleteOutcome, tolerateNotFound: bool): (r: SweepResult)
    ensures SentInOrder(plan, outcome, tolerateNotFound, r)
    decreases |plan|
  {
    if |plan| == 0 then SweepResult([], None)
    else
      var d := plan[0];
      if Absorbed(outcome(d), tolerateNotFound) then
        var rest := Run(plan[1..], outcome, tolerateNotFound);
        RunStep(plan, outcome, tolerateNotFound, rest);
        SweepResult([d] + rest.issued, rest.failure)
      else
        RunStop(plan, outcome, tolerateNotFound);
        SweepResult([d], Some(DeleteFailure(d, outcome(d))))
  }

  /** The step of Run that absorbs the first delete and goes on with the rest. */
  lemma RunStep(plan: seq<Delete>, outcome: Delete -> DeleteOutcome, tolerateNotFound: bool, rest: SweepResult)
    requires |plan| > 0 && Absorbed(outcome(plan[0]), tolerateNotFound)
    requires SentInOrder(plan[1..], outcome, tolerateNotFound, rest)
    ensures SentInOrder(plan, outcome, tolerateNotFound, SweepResult([plan[0]] + rest.issued, rest.failure))
  {
    var d := plan[0];
    var issued := [d] + rest.issued;
    assert plan == [d] + plan[1..];
    assert AllAbsorbed(plan, outcome, tolerateNotFound) <==> AllAbsorbed(plan[1..], outcome, tolerateNotFound) by {
      if AllAbsorbed(plan[1..], outcome, tolerateNotFound) {
        forall k | 0 <= k < |plan| ensures Absorbed(outcome(plan[k]), tolerateNotFound) {
          if k > 0 { assert plan[k] == plan[1..][k - 1]; }
        }
      }
    }
    if rest.failure.Some? {
      var n := |rest.issued|;
      assert issued[n] == rest.issued[n - 1];
      assert issued[..n] == [d] + rest.issued[..n - 1];
      forall k | 0 <= k < n ensures Absorbed(outcome(issued[..n][k]), tolerateNotFound) {
        if k > 0 { assert issued[..n][k] == rest.issued[..n - 1][k - 1]; }
      }
    }
  }

  /** The step of Run whose first delete is not absorbed. */
  lemma RunStop(plan: seq<Delete>, outcome: Delete -> DeleteOutcome, tolerateNotFound: bool)
    requires |plan| > 0 && !Absorbed(outcome(plan[0]), tolerateNotFound)
    ensures SentInOrder(plan, outcome, tolerateNotFound, SweepResult([plan[0]], Some(DeleteFailure(plan[0], outcome(plan[0])))))
  {
    assert [plan[0]] == plan[..1] && [plan[0]][..0] == [];
  }

  /** A run without tolerance: every delete but the failing last one succeeded. */
  lemma StrictRun(plan: seq<Delete>, outcome: Delete -> DeleteOutcome, r: SweepResult)
    requires SentInOrder(plan, outcome, false, r)
    ensures |r.issued| <= |plan| && r.issued == plan[..|r.issued|]
    ensures r.failure.None? <==> forall d :: d in plan ==> outcome(d) == Deleted
    ensures r.failure.None? ==> r.issued == plan
    ensures r.failure.Some? ==>
              && r.failure.value.DeleteFailure? && r.failure.value.outcome != Deleted
              && |r.issued| > 0 && r.failure.value.target == r.issued[|r.issued| - 1]
              && r.failure.value.outcome == outcome(r.failure.value.target)
              && forall k :: 0 <= k < |r.issued| - 1 ==> outcome(r.issued[k]) == Deleted
  {
    assert AllAbsorbed(plan, outcome, false) <==> forall d :: d in plan ==> outcome(d) == Deleted by {
      if AllAbsorbed(plan, outcome, false) {
        forall d | d in plan ensures outcome(d) == Deleted {
          var k :| 0 <= k < |plan| && plan[k] == d;
        }
      }
    }
    if r.failure.Some? {
      var n := |r.issued|;
      forall k | 0 <= k < n - 1 ensures outcome(r.issued[k]) == Deleted {
        assert r.issued[..n - 1][k] == r.issued[k];
      }
    }
  }

  /** A run that gets through `done` and fails on `d` stops there, whatever follows. */
  lemma {:induction false} RunStopsAtFailure(done: seq<Delete>, d: Delete, rest: seq<Delete>,
                                             outcome: Delete -> DeleteOutcome, tolerateNotFound: bool)
    requires forall e :: e in done ==> Absorbed(outcome(e), tolerateNotFound)
    requires !Absorbed(outcome(d), tolerateNotFound)
    ensures Run(done + [d] + rest, outcome, tolerateNotFound) == SweepResult(done + [d], Some(DeleteFailure(d, outcome(d))))
    decreases |done|
  {
    var plan := done + [d] + rest;
    if |done| > 0 {
      assert plan[0] == done[0] && done[0] in done;
      assert plan[1..] == done[1..] + [d] + rest;
      RunStopsAtFailure(done[1..], d, rest, outcome, tolerateNotFound);
      var tail := Run(plan[1..], outcome, tolerateNotFound);
      assert tail == SweepResult(done[1..] + [d], Some(DeleteFailure(d, outcome(d))));
      assert Run(plan, outcome, tolerateNotFound) == SweepResult([plan[0]] + tail.issued, tail.failure);
      assert [done[0]] + (done[1..] + [d]) == done + [d];
    } else {
      assert plan[0] == d;
    }
  }

  // ---------------------------------------------------------------------------
  // The sweeps
  // ---------------------------------------------------------------------------

  /** The template sweep: any delete that does not succeed, a missing template
      included, ends the sweep. */
  function CleanUpTemplates(prefix: string, project: string, now: Instant, listing: seq<InstanceTemplate>,
                            outcome: Delete -> DeleteOutcome): (r: SweepResult)
    ensures r.failure.None? <==> forall d :: d in TemplatePlan(prefix, project, now, listing) ==> outcome(d) == Deleted
    ensures r.failure.None? ==> r.issued == TemplatePlan(prefix, project, now, listing)
    ensures r.failure.Some? ==> r.failure.value.DeleteFailure? && r.failure.value.outcome != Deleted
    ensures var plan := TemplatePlan(prefix, project, now, listing);
            |r.issued| <= |plan| && r.issued == plan[..|r.issued|]
    ensures r.failure.Some? ==>
              && |r.issued| > 0
              && r.failure.value.target == r.issued[|r.issued| - 1]
              && r.failure.value.outcome == outcome(r.failure.value.target)
              && forall k :: 0 <= k < |r.issued| - 1 ==> outcome(r.issued[k]) == Deleted
  {
    var r := Run(TemplatePlan(prefix, project, now, listing), outcome, false);
    StrictRun(TemplatePlan(prefix, project, now, listing), outcome, r);
    r
  }

  /** The instance sweep over an aggregated listing; failures propagate as for templates. */
  function CleanUpInstances(prefix: string, project: string, zone: string, now: Instant, groups: seq<ZoneGroup>,
                            outcome: Delete -> DeleteOutcome): (r: SweepResult)
    ensures r.failure.None? <==> forall d :: d in InstancePlan(prefix, project, zone, now, groups) ==> outcome(d) == Deleted
    ensures r.failure.None? ==> r.issued == InstancePlan(prefix, project, zone, now, groups)
    ensures r.failure.Some? ==> r.failure.value.DeleteFailure? && r.failure.value.outcome != Deleted
    ensures var plan := InstancePlan(prefix, project, zone, now, groups);
            |r.issued| <= |plan| && r.issued == plan[..|r.issued|]
    ensures r.failure.Some? ==>
              && |r.issued| > 0
              && r.failure.value.target == r.issued[|r.issued| - 1]
              && r.failure.value.outcome == outcome(r.failure.value.target)
              && forall k :: 0 <= k < |r.issued| - 1 ==> outcome(r.issued[k]) == Deleted
  {
    var r := Run(InstancePlan(prefix, project, zone, now, groups), outcome, false);
    StrictRun(InstancePlan(prefix, project, zone, now, groups), outcome, r);
    r
  }

  /** A reservation whose name matches but whose listing carries no creation
      time: parsing its timestamp fails. */
  predicate Unparsable(prefix: string, x: Reservation) {
    Contains(x.name, prefix) && x.creation.None?
  }

  /** Position `i` holds the first unparsable reservation of the listing. */
  predicate FirstUnparsableAt(prefix: string, listing: seq<Reservation>, i: int) {
    && 0 <= i < |listing|
    && Unparsable(prefix, listing[i])
    && forall j :: 0 <= j < i ==> !Unparsable(prefix, listing[j])
  }

  /** The reservation plan of a non-empty listing: the head's delete, if it is
      selected, then the plan of the rest. */
  lemma ReservationPlanCons(prefix: string, project: string, zone: string, now: Instant, listing: seq<Reservation>)
    requires |listing| > 0
    ensures var x := listing[0];
            var tail := ReservationPlan(prefix, project, zone, now, listing[1..]);
            ReservationPlan(prefix, project, zone, now, listing)
              == if SelectsReservation(prefix, now, x) then [DeleteReservation(project, zone, x.name)] + tail else tail
  {
  }

  /** Moving the first unparsable position one element to the right. */
  lemma FirstUnparsableShift(prefix: string, listing: seq<Reservation>, i: int)
    requires |listing| > 0 && !Unparsable(prefix, listing[0])
    requires FirstUnparsableAt(prefix, listing[1..], i)
    ensures FirstUnparsableAt(prefix, listing, i + 1)
    ensures listing[..i + 1] == [listing[0]] + listing[1..][..i]
  {
    forall j | 0 <= j < i + 1 ensures !Unparsable(prefix, listing[j]) {
      if j > 0 { assert listing[j] == listing[1..][j - 1]; }
    }
  }

  /** Moving the first unparsable position one element to the left. */
  lemma FirstUnparsableUnshift(prefix: string, listing: seq<Reservation>, i: int)
    requires FirstUnparsableAt(prefix, listing, i) && i > 0
    ensures !Unparsable(prefix, listing[0])
    ensures FirstUnparsableAt(prefix, listing[1..], i - 1)
    ensures listing[..i][0] == listing[0] && listing[..i][1..] == listing[1..][..i - 1]
  {
    forall j | 0 <= j < i - 1 ensures !Unparsable(prefix, listing[1..][j]) {
      assert listing[1..][j] == listing[j + 1];
    }
  }

  /** The reservation sweep. The name test comes first; only a reservation whose
      name matches has its creation time parsed, and a missing one fails the
      parse and ends the sweep (`Unparsable`). A selected reservation is
      deleted, and a delete that fails with anything but NotFound ends the
      sweep; otherwise the sweep goes on with the rest of the listing. */
  function CleanUpReservations(prefix: string, project: string, zone: string, now: Instant,
                               listing: seq<Reservation>, outcome: Delete -> DeleteOutcome): (r: SweepResult)
    ensures ReservationSweepSpec(prefix, project, zone, now, listing, outcome, r)
    decreases |listing|
  {
    if |listing| == 0 then SweepResult([], None)
    else
      var x := listing[0];
      var d := DeleteReservation(project, zone, x.name);
      if Unparsable(prefix, x) then
        StopUnparsable(prefix, project, zone, now, listing, outcome);
        SweepResult([], Some(UnparsableTimestamp(x.name)))
      else if SelectsReservation(prefix, now, x) && outcome(d) == Failed then
        StopFailed(prefix, project, zone, now, listing, outcome);
        SweepResult([d], Some(DeleteFailure(d, Failed)))
      else
        var sent := SelectsReservation(prefix, now, x);
        var rest := CleanUpReservations(prefix, project, zone, now, listing[1..], outcome);
        ReservationStep(prefix, project, zone, now, listing, outcome, rest, sent);
        SweepResult(StepIssued(project, zone, listing, rest, sent), rest.failure)
  }

  /** What the reservation sweep promises about its result `r`:
      - every delete sent names a selected reservation of the listing;
      - the deletes sent are a prefix of the plan, so they follow listing order;
      - a completed sweep sent the whole plan, and every name-matched
        reservation had a creation time;
      - a delete failure is a Failed answer to the last delete sent;
      - a parse failure names the first name-matched reservation without a
        creation time, after exactly the deletes planned before it. */
  ghost predicate ReservationSweepSpec(prefix: string, project: string, zone: string, now: Instant,
                          listing: seq<Reservation>, outcome: Delete -> DeleteOutcome, r: SweepResult)
  {
    && IssuedSelected(prefix, project, zone, now, listing, r.issued)
    && IssuedPrefixOfPlan(prefix, project, zone, now, listing, r.issued)
    && CompletedSweep(prefix, project, zone, now, listing, r)
    && FailedLast(outcome, r)
    && StoppedAtUnparsable(prefix, project, zone, now, listing, r)
  }

  ghost predicate IssuedSelected(prefix: string, project: string, zone: string, now: Instant,
                                 listing: seq<Reservation>, issued: seq<Delete>)
  {
    forall d :: d in issued ==>
      exists x :: x in listing && SelectsReservation(prefix, now, x) && d == DeleteReservation(project, zone, x.name)
  }

  predicate IssuedPrefixOfPlan(prefix: string, project: string, zone: string, now: Instant,
                               listing: seq<Reservation>, issued: seq<Delete>)
  {
    var plan := ReservationPlan(prefix, project, zone, now, listing);
    |issued| <= |plan| && issued == plan[..|issued|]
  }

  predicate CompletedSweep(prefix: string, project: string, zone: string, now: Instant,
                           listing: seq<Reservation>, r: SweepResult)
  {
    r.failure.None? ==>
      && r.issued == ReservationPlan(prefix, project, zone, now, listing)
      && forall x :: x in listing && Contains(x.name, prefix) ==> x.creation.Some?
  }

  predicate FailedLast(outcome: Delete -> DeleteOutcome, r: SweepResult)
  {
    r.failure.Some? && r.failure.value.DeleteFailure? ==>
      && r.failure.value.outcome == Failed
      && |r.issued| > 0
      && r.failure.value.target == r.issued[|r.issued| - 1]
      && outcome(r.failure.value.target) == Failed
  }

  ghost predicate StoppedAtUnparsable(prefix: string, project: string, zone: string, now: Instant,
                                      listing: seq<Reservation>, r: SweepResult)
  {
    r.failure.Some? && r.failure.value.UnparsableTimestamp? ==>
      exists i :: FirstUnparsableAt(prefix, listing, i) && listing[i].name == r.failure.value.name
        && r.issued == ReservationPlan(prefix, project, zone, now, listing[..i])
  }

  /** The sweep stops at a head whose timestamp does not parse. */
  lemma StopUnparsable(prefix: string, project: string, zone: string, now: Instant,
                       listing: seq<Reservation>, outcome: Delete -> DeleteOutcome)
    requires |listing| > 0 && Unparsable(prefix, listing[0])
    ensures ReservationSweepSpec(prefix, project, zone, now, listing, outcome,
                          SweepResult([], Some(UnparsableTimestamp(listing[0].name))))
  {
    assert FirstUnparsableAt(prefix, listing, 0) && listing[..0] == [];
  }

  /** The sweep stops at a selected head whose delete fails. */
  lemma StopFailed(prefix: string, project: string, zone: string, now: Instant,
                   listing: seq<Reservation>, outcome: Delete -> DeleteOutcome)
    requires |listing| > 0 && SelectsReservation(prefix, now, listing[0])
    requires outcome(DeleteReservation(project, zone, listing[0].name)) == Failed
    ensures var d := DeleteReservation(project, zone, listing[0].name);
            ReservationSweepSpec(prefix, project, zone, now, listing, outcome, SweepResult([d], Some(DeleteFailure(d, Failed))))
  {
    ReservationPlanCons(prefix, project, zone, now, listing);
    assert listing[0] in listing;
  }

  /** The deletes of a step, with the head's delete in front when it was sent. */
  function StepIssued(project: string, zone: string, listing: seq<Reservation>, rest: SweepResult, sent: bool): seq<Delete>
    requires |listing| > 0
  {
    if sent then [DeleteReservation(project, zone, listing[0].name)] + rest.issued else rest.issued
  }

  lemma StepSelected(prefix: string, project: string, zone: string, now: Instant,
                     listing: seq<Reservation>, rest: SweepResult, sent: bool)
    requires |listing| > 0 && (sent ==> SelectsReservation(prefix, now, listing[0]))
    requires IssuedSelected(prefix, project, zone, now, listing[1..], rest.issued)
    ensures IssuedSelected(prefix, project, zone, now, listing, StepIssued(project, zone, listing, rest, sent))
  {
    var x := listing[0];
    forall e | e in StepIssued(project, zone, listing, rest, sent)
      ensures exists y :: y in listing && SelectsReservation(prefix, now, y) && e == DeleteReservation(project, zone, y.name)
    {
      if sent && e == DeleteReservation(project, zone, x.name) {
        assert x in listing;
      } else {
        assert e in rest.issued;
        var y :| y in listing[1..] && SelectsReservation(prefix, now, y) && e == DeleteReservation(project, zone, y.name);
        assert y in listing;
      }
    }
  }

  lemma StepPrefix(prefix: string, project: string, zone: string, now: Instant,
                   listing: seq<Reservation>, rest: SweepResult, sent: bool)
    requires |listing| > 0 && (sent <==> SelectsReservation(prefix, now, listing[0]))
    requires IssuedPrefixOfPlan(prefix, project, zone, now, listing[1..], rest.issued)
    ensures IssuedPrefixOfPlan(prefix, project, zone, now, listing, StepIssued(project, zone, listing, rest, sent))
  {
    ReservationPlanCons(prefix, project, zone, now, listing);
  }

  lemma StepCompleted(prefix: string, project: string, zone: string, now: Instant,
                      listing: seq<Reservation>, rest: SweepResult, sent: bool)
    requires |listing| > 0 && !Unparsable(prefix, listing[0])
    requires sent <==> SelectsReservation(prefix, now, listing[0])
    requires CompletedSweep(prefix, project, zone, now, listing[1..], rest)
    ensures CompletedSweep(prefix, project, zone, now, listing,
                           SweepResult(StepIssued(project, zone, listing, rest, sent), rest.failure))
  {
    if rest.failure.None? {
      ReservationPlanCons(prefix, project, zone, now, listing);
      forall y | y in listing && Contains(y.name, prefix) ensures y.creation.Some? {
        if y != listing[0] {
          assert listing == [listing[0]] + listing[1..];
          assert y in listing[1..];
        }
      }
    }
  }

  lemma StepFailedLast(project: string, zone: string, listing: seq<Reservation>, outcome: Delete -> DeleteOutcome,
                       rest: SweepResult, sent: bool)
    requires |listing| > 0 && FailedLast(outcome, rest)
    ensures FailedLast(outcome, SweepResult(StepIssued(project, zone, listing, rest, sent), rest.failure))
  {
    if rest.failure.Some? && rest.failure.value.DeleteFailure? {
      var issued := StepIssued(project, zone, listing, rest, sent);
      assert issued[|issued| - 1] == rest.issued[|rest.issued| - 1];
    }
  }

  lemma StepUnparsable(prefix: string, project: string, zone: string, now: Instant,
                       listing: seq<Reservation>, rest: SweepResult, sent: bool)
    requires |listing| > 0 && !Unparsable(prefix, listing[0])
    requires sent <==> SelectsReservation(prefix, now, listing[0])
    requires StoppedAtUnparsable(prefix, project, zone, now, listing[1..], rest)
    ensures StoppedAtUnparsable(prefix, project, zone, now, listing,
                                SweepResult(StepIssued(project, zone, listing, rest, sent), rest.failure))
  {
    if rest.failure.Some? && rest.failure.value.UnparsableTimestamp? {
      var name := rest.failure.value.name;
      var i :| FirstUnparsableAt(prefix, listing[1..], i) && listing[1..][i].name == name
                 && rest.issued == ReservationPlan(prefix, project, zone, now, listing[1..][..i]);
      FirstUnparsableShift(prefix, listing, i);
      var before := listing[..i + 1];
      ReservationPlanCons(prefix, project, zone, now, before);
      assert before[0] == listing[0] && before[1..] == listing[1..][..i];
    }
  }

  /** The step of the reservation sweep past a head that parses, with or
      without its delete sent first: the sweep's contract for the rest of the
      listing gives it for the whole listing. */
  lemma ReservationStep(prefix: string, project: string, zone: string, now: Instant,
                        listing: seq<Reservation>, outcome: Delete -> DeleteOutcome, rest: SweepResult, sent: bool)
    requires |listing| > 0 && !Unparsable(prefix, listing[0])
    requires sent <==> SelectsReservation(prefix, now, listing[0])
    requires ReservationSweepSpec(prefix, project, zone, now, listing[1..], outcome, rest)
    ensures ReservationSweepSpec(prefix, project, zone, now, listing, outcome,
                          SweepResult(StepIssued(project, zone, listing, rest, sent), rest.failure))
  {
    StepSelected(prefix, project, zone, now, listing, rest, sent);
    StepPrefix(prefix, project, zone, now, listing, rest, sent);
    StepCompleted(prefix, project, zone, now, listing, rest, sent);
    StepFailedLast(project, zone, listing, outcome, rest, sent);
    StepUnparsable(prefix, project, zone, now, listing, rest, sent);
  }

  /** Every name-matched reservation has a creation time: the reservation
      sweep is its plan run with NotFound absorbed. */
  lemma {:induction false} ReservationSweepRunsPlan(prefix: string, project: string, zone: string, now: Instant,
                                                    listing: seq<Reservation>, outcome: Delete -> DeleteOutcome)
    requires forall x :: x in listing && Contains(x.name, prefix) ==> x.creation.Some?
    ensures CleanUpReservations(prefix, project, zone, now, listing, outcome)
         == Run(ReservationPlan(prefix, project, zone, now, listing), outcome, true)
    decreases |listing|
  {
    if |listing| > 0 {
      var x := listing[0];
      var d := DeleteReservation(project, zone, x.name);
      var plan := ReservationPlan(prefix, project, zone, now, listing);
      var tail := ReservationPlan(prefix, project, zone, now, listing[1..]);
      ReservationPlanCons(prefix, project, zone, now, listing);
      assert x in listing && !Unparsable(prefix, x);
      if SelectsReservation(prefix, now, x) && outcome(d) == Failed {
        assert plan[0] == d;
      } else {
        assert forall y :: y in listing[1..] && Contains(y.name, prefix) ==> y.creation.Some? by {
          forall y | y in listing[1..] ensures y in listing {
            var k :| 0 <= k < |listing[1..]| && listing[1..][k] == y;
            assert listing[k + 1] == y;
          }
        }
        ReservationSweepRunsPlan(prefix, project, zone, now, listing[1..], outcome);
        var inner := Run(tail, outcome, true);
        if SelectsReservation(prefix, now, x) {
          assert plan == [d] + tail && plan[0] == d && plan[1..] == tail;
          assert Run(plan, outcome, true) == SweepResult([d] + inner.issued, inner.failure);
        } else {
          assert plan == tail;
        }
      }
    }
  }

  /** The first name-matched reservation without a creation time sits at `i`:
      the sweep runs the plan of the reservations before it, with NotFound
      absorbed, and if that run gets through, the parse of reservation `i`
      ends the sweep. */
  lemma {:induction false} ReservationSweepStopsAtUnparsable(prefix: string, project: string, zone: string, now: Instant,
                                                             listing: seq<Reservation>, outcome: Delete -> DeleteOutcome, i: int)
    requires FirstUnparsableAt(prefix, listing, i)
    ensures var run := Run(ReservationPlan(prefix, project, zone, now, listing[..i]), outcome, true);
            CleanUpReservations(prefix, project, zone, now, listing, outcome)
              == if run.failure.Some? then run else SweepResult(run.issued, Some(UnparsableTimestamp(listing[i].name)))
    decreases i
  {
    var before := listing[..i];
    var plan := ReservationPlan(prefix, project, zone, now, before);
    if i == 0 {
      assert before == [];
      assert plan == [];
    } else {
      var x := listing[0];
      var d := DeleteReservation(project, zone, x.name);
      FirstUnparsableUnshift(prefix, listing, i);
      ReservationPlanCons(prefix, project, zone, now, before);
      var tail := ReservationPlan(prefix, project, zone, now, before[1..]);
      if SelectsReservation(prefix, now, x) && outcome(d) == Failed {
        assert plan[0] == d;
      } else {
        ReservationSweepStopsAtUnparsable(prefix, project, zone, now, listing[1..], outcome, i - 1);
        var rest := CleanUpReservations(prefix, project, zone, now, listing[1..], outcome);
        var inner := Run(tail, outcome, true);
        if SelectsReservation(prefix, now, x) {
          assert plan == [d] + tail && plan[0] == d && plan[1..] == tail;
          assert Run(plan, outcome, true) == SweepResult([d] + inner.issued, inner.failure);
        } else {
          assert plan == tail;
        }
      }
    }
  }

  /** A second pass over a listing whose stale reservations are already gone
      (every delete answers NotFound) finishes without error. */
  lemma RepeatedReservationSweepSucceeds(prefix: string, project: string, zone: string, now: Instant,
                                         listing: seq<Reservation>, outcome: Delete -> DeleteOutcome)
    requires forall x :: x in listing && Contains(x.name, prefix) ==> x.creation.Some?
    requires forall d :: outcome(d) == NotFound
    ensures CleanUpReservations(prefix, project, zone, now, listing, outcome)
         == SweepResult(ReservationPlan(prefix, project, zone, now, listing), None)
  {
    ReservationSweepRunsPlan(prefix, project, zone, now, listing, outcome);
  }

  /** The same NotFound answers end a template sweep at its first delete. */
  lemma RepeatedTemplateSweepFails(prefix: string, project: string, now: Instant,
                                   listing: seq<InstanceTemplate>, outcome: Delete -> DeleteOutcome)
    requires forall d :: outcome(d) == NotFound
    requires TemplatePlan(prefix, project, now, listing) != []
    ensures CleanUpTemplates(prefix, project, now, listing, outcome)
         == SweepResult([TemplatePlan(prefix, project, now, listing)[0]],
                        Some(DeleteFailure(TemplatePlan(prefix, project, now, listing)[0], NotFound)))
  {
  }

  // ---------------------------------------------------------------------------
  // The instance sweep as nested loops
  // ---------------------------------------------------------------------------

  lemma FlattenAt(groups: seq<ZoneGroup>, g: int, i: int)
    requires 0 <= g < |groups| && 0 <= i < |groups[g].instances|
    ensures Flatten(groups)
         == (Flatten(groups[..g]) + groups[g].instances[..i]) + [groups[g].instances[i]]
            + (groups[g].instances[i + 1..] + Flatten(groups[g + 1..]))
  {
    var instances := groups[g].instances;
    assert groups == groups[..g] + [groups[g]] + groups[g + 1..];
    FlattenAppend(groups[..g] + [groups[g]], groups[g + 1..]);
    FlattenAppend(groups[..g], [groups[g]]);
    assert Flatten([groups[g]]) == instances;
    assert instances == instances[..i] + [instances[i]] + instances[i + 1..];
  }

  /** Considering one more instance appends its delete when it is selected. */
  lemma InstanceDeletesStep(prefix: string, project: string, zone: string, now: Instant,
                            front: seq<Instance>, x: Instance)
    ensures InstanceDeletes(prefix, project, zone, now, front + [x])
         == InstanceDeletes(prefix, project, zone, now, front)
            + (if SelectsInstance(prefix, now, x) then [DeleteInstance(project, zone, x.name)] else [])
  {
    InstanceDeletesAppend(prefix, project, zone, now, front, [x]);
  }

  /** One more instance of group `g` seen by the inner loop. */
  lemma GroupStep(prefix: string, project: string, zone: string, now: Instant, groups: seq<ZoneGroup>, g: int, i: int)
    requires 0 <= g < |groups| && 0 <= i < |groups[g].instances|
    ensures var x := groups[g].instances[i];
            InstanceDeletes(prefix, project, zone, now, Flatten(groups[..g]) + groups[g].instances[..i + 1])
            == InstanceDeletes(prefix, project, zone, now, Flatten(groups[..g]) + groups[g].instances[..i])
               + (if SelectsInstance(prefix, now, x) then [DeleteInstance(project, zone, x.name)] else [])
  {
    var front := Flatten(groups[..g]) + groups[g].instances[..i];
    InstanceDeletesStep(prefix, project, zone, now, front, groups[g].instances[i]);
    assert Flatten(groups[..g]) + groups[g].instances[..i + 1] == front + [groups[g].instances[i]];
  }

  /** The outer loop has seen the groups before `g` and the first `i`
      instances of group `g`; the instance at `i` is selected and its delete
      fails: the whole sweep ends right there. */
  lemma InstanceSweepStopsAt(prefix: string, project: string, zone: string, now: Instant,
                             groups: seq<ZoneGroup>, g: int, i: int, issued: seq<Delete>,
                             outcome: Delete -> DeleteOutcome)
    requires 0 <= g < |groups| && 0 <= i < |groups[g].instances|
    requires issued == InstanceDeletes(prefix, project, zone, now, Flatten(groups[..g]) + groups[g].instances[..i])
    requires forall d :: d in issued ==> outcome(d) == Deleted
    requires SelectsInstance(prefix, now, groups[g].instances[i])
    requires outcome(DeleteInstance(project, zone, groups[g].instances[i].name)) != Deleted
    ensures var d := DeleteInstance(project, zone, groups[g].instances[i].name);
              CleanUpInstances(prefix, project, zone, now, groups, outcome)
              == SweepResult(issued + [d], Some(DeleteFailure(d, outcome(d))))
  {
    var x := groups[g].instances[i];
    var d := DeleteInstance(project, zone, x.name);
    var front := Flatten(groups[..g]) + groups[g].instances[..i];
    var back := groups[g].instances[i + 1..] + Flatten(groups[g + 1..]);
    FlattenAt(groups, g, i);
    InstanceDeletesAppend(prefix, project, zone, now, front + [x], back);
    InstanceDeletesStep(prefix, project, zone, now, front, x);
    RunStopsAtFailure(issued, d, InstanceDeletes(prefix, project, zone, now, back), outcome, false);
  }

  /** Every planned instance delete succeeded: the sweep completes with the whole plan sent. */
  lemma InstanceSweepCompletes(prefix: string, project: string, zone: string, now: Instant,
                               groups: seq<ZoneGroup>, outcome: Delete -> DeleteOutcome)
    requires forall d :: d in InstancePlan(prefix, project, zone, now, groups) ==> outcome(d) == Deleted
    ensures CleanUpInstances(prefix, project, zone, now, groups, outcome)
         == SweepResult(InstancePlan(prefix, project, zone, now, groups), None)
  {
  }

  /** Finishing group `g` extends the plan of the groups before it. */
  lemma InstancePlanStep(prefix: string, project: string, zone: string, now: Instant, groups: seq<ZoneGroup>, g: int)
    requires 0 <= g < |groups|
    ensures InstancePlan(prefix, project, zone, now, groups[..g + 1])
         == InstanceDeletes(prefix, project, zone, now, Flatten(groups[..g]) + groups[g].instances)
  {
    assert groups[..g + 1] == groups[..g] + [groups[g]];
    FlattenAppend(groups[..g], [groups[g]]);
    assert Flatten([groups[g]]) == groups[g].instances;
  }

  /** The inner loop of the sweep over the instances of group `g`, entered
      with the deletes sent for the groups before it. It either gets through
      the group, having sent the deletes planned up to its end, or stops at a
      failed delete with the result of the whole sweep. */
  method SweepGroup(prefix: string, project: string, zone: string, now: Instant,
                    groups: seq<ZoneGroup>, g: int, sent: seq<Delete>, outcome: Delete -> DeleteOutcome)
    returns (issued: seq<Delete>, failure: Option<Failure>)
    requires 0 <= g < |groups|
    requires sent == InstancePlan(prefix, project, zone, now, groups[..g])
    requires forall d :: d in sent ==> outcome(d) == Deleted
    ensures failure.None? ==> issued == InstancePlan(prefix, project, zone, now, groups[..g + 1])
    ensures failure.None? ==> forall d :: d in issued ==> outcome(d) == Deleted
    ensures failure.Some? ==> SweepResult(issued, failure) == CleanUpInstances(prefix, project, zone, now, groups, outcome)
  {
    issued := sent;
    var instances := groups[g].instances;
    assert Flatten(groups[..g]) + instances[..0] == Flatten(groups[..g]);
    for i := 0 to |instances|
      invariant issued == InstanceDeletes(prefix, project, zone, now, Flatten(groups[..g]) + instances[..i])
      invariant forall d :: d in issued ==> outcome(d) == Deleted
    {
      var x := instances[i];
      GroupStep(prefix, project, zone, now, groups, g, i);
      if SelectsInstance(prefix, now, x) {
        var d := DeleteInstance(project, zone, x.name);
        if outcome(d) != Deleted {
          InstanceSweepStopsAt(prefix, project, zone, now, groups, g, i, issued, outcome);
          return issued + [d], Some(DeleteFailure(d, outcome(d)));
        }
        issued := issued + [d];
      }
    }
    InstancePlanStep(prefix, project, zone, now, groups, g);
    assert instances[..|instances|] == instances;
    failure := None;
  }

  /** The sweep as the source writes it: a loop over the groups of the
      aggregated listing and, inside it, a loop over each group's instances. */
  method CleanUpExistingInstances(prefix: string, project: string, zone: string, now: Instant,
                                  groups: seq<ZoneGroup>, outcome: Delete -> DeleteOutcome)
    returns (r: SweepResult)
    ensures r == CleanUpInstances(prefix, project, zone, now, groups, outcome)
  {
    var issued: seq<Delete> := [];
    for g := 0 to |groups|
      invariant issued == InstancePlan(prefix, project, zone, now, groups[..g])
      invariant forall d :: d in issued ==> outcome(d) == Deleted
    {
      var failure;
      issued, failure := SweepGroup(prefix, project, zone, now, groups, g, issued, outcome);
      if failure.Some? {
        return SweepResult(issued, failure);
      }
    }
    assert groups[..|groups|] == groups;
    InstanceSweepCompletes(prefix, project, zone, now, groups, outcome);
    return SweepResult(issued, None);
  }
}

=== FILE: encryption_key.dfy ===
/**
 The key material behind the test disk-encryption keys: 32 characters, each
 drawn from a fixed 62-character alphanumeric sample space. The draws are
 random in the source; here they are an input (`KeyString`) or a
 nondeterministic choice (`GenerateKey`). The Base64 encoding applied
 afterwards is not modelled.
 */
module EncryptionKey {

  const Digits: string := "0123456789"
  const Capitals: string := "ABCDEFGHIJKLMNOPQRSTUVWXYZ"
  const SmallLetters: string := "abcdefghijklmnopqrstuvwxyz"

  /** The 62 characters the key is drawn from, in the source's order. */
  const SampleSpace: string := Digits + Capitals + SmallLetters
  const KeyLength: int := 32

  predicate IsAlphanumeric(c: char) {
    '0' <= c <= '9' || 'A' <= c <= 'Z' || 'a' <= c <= 'z'
  }

  /** Position `k` of the sample space holds the `k`-th digit, capital or
      small letter, in that order. */
  lemma SampleSpaceAt(k: int)
    requires 0 <= k < |SampleSpace|
    ensures k < 10 ==> SampleSpace[k] == ('0' as int + k) as char
    ensures 10 <= k < 36 ==> SampleSpace[k] == ('A' as int + k - 10) as char
    ensures 36 <= k ==> SampleSpace[k] == ('a' as int + k - 36) as char
  {
    if k < 10 {
      assert SampleSpace[k] == Digits[k];
    } else if k < 36 {
      assert SampleSpace[k] == Capitals[k - 10];
    } else {
      assert SampleSpace[k] == SmallLetters[k - 36];
    }
  }

  /** Where an alphanumeric character sits in the sample space. */
  function IndexOf(c: char): (k: int)
    requires IsAlphanumeric(c)
    ensures 0 <= k < |SampleSpace| && SampleSpace[k] == c
  {
    var k := if c <= '9' then c as int - '0' as int
             else if c <= 'Z' then c as int - 'A' as int + 10
             else c as int - 'a' as int + 36;
    SampleSpaceAt(k);
    k
  }

  /** The sample space holds exactly the alphanumeric characters, each once. */
  lemma SampleSpaceIsAlphanumeric()
    ensures |SampleSpace| == 62
    ensures forall k :: 0 <= k < |SampleSpace| ==> IsAlphanumeric(SampleSpace[k]) && IndexOf(SampleSpace[k]) == k
  {
    forall k | 0 <= k < |SampleSpace|
      ensures IsAlphanumeric(SampleSpace[k]) && IndexOf(SampleSpace[k]) == k
    {
      SampleSpaceAt(k);
    }
  }

  predicate IsDraws(draws: seq<int>) {
    forall k :: 0 <= k < |draws| ==> 0 <= draws[k] < |SampleSpace|
  }

  /** The string the key builder appends when its random source yields `draws`. */
  function KeyString(draws: seq<int>): (key: string)
    requires IsDraws(draws)
    ensures |key| == |draws|
    ensures forall k :: 0 <= k < |key| ==> IsAlphanumeric(key[k])
  {
    SampleSpaceIsAlphanumeric();
    seq(|draws|, k requires 0 <= k < |draws| => SampleSpace[draws[k]])
  }

  /** The draws that produce a given alphanumeric string. */
  function Draws(key: string): (draws: seq<int>)
    requires forall k :: 0 <= k < |key| ==> IsAlphanumeric(key[k])
    ensures |draws| == |key| && IsDraws(draws)
  {
    seq(|key|, k requires 0 <= k < |key| => IndexOf(key[k]))
  }

  /** Every alphanumeric string of any length is produced by exactly one
      sequence of draws: KeyString and Draws are inverse to each other. */
  lemma KeyStringRoundTrip(key: string, draws: seq<int>)
    requires forall k :: 0 <= k < |key| ==> IsAlphanumeric(key[k])
    requires IsDraws(draws)
    ensures KeyString(Draws(key)) == key
    ensures Draws(KeyString(draws)) == draws
  {
    SampleSpaceIsAlphanumeric();
    var d := Draws(key);
    assert forall k :: 0 <= k < |key| ==> KeyString(d)[k] == SampleSpace[IndexOf(key[k])];
  }

  /** getBase64EncodedKey before encoding: 32 random picks from the sample
      space, the key string of those draws. */
  method GenerateKey() returns (key: string)
    ensures |key| == KeyLength
    ensures forall k :: 0 <= k < |key| ==> IsAlphanumeric(key[k])
    ensures exists draws :: IsDraws(draws) && |draws| == KeyLength && key == KeyString(draws)
  {
    var draws: seq<int> := [];
    for x := 0 to KeyLength
      invariant |draws| == x && IsDraws(draws)
    {
      var pick :| 0 <= pick < |SampleSpace|;
      draws := draws + [pick];
    }
    key := KeyString(draws);
  }
}

=== FILE: java_string.dfy ===
/**
 The java.lang.String operations the cleanup helper relies on, with Java's
 semantics written out: `contains`, `trim`, `split(",")` and
 `equalsIgnoreCase`. Strings are sequences of characters; Java's UTF-16 code
 units and Dafny's Unicode scalar values agree on every character used here.
 */
module JavaString {

  // ---------------------------------------------------------------------------
  // contains
  // ---------------------------------------------------------------------------

  /** `sub` occurs in `s` starting at index `i`. */
  predicate OccursAt(s: string, sub: string, i: int) {
    0 <= i && i + |sub| <= |s| && s[i..i + |sub|] == sub
  }

  predicate StartsWith(s: string, prefix: string) {
    |prefix| <= |s| && s[..|prefix|] == prefix
  }

  /** String.contains: tries every start position from the left, as indexOf does. */
  predicate Contains(s: string, sub: string)
    ensures |sub| == 0 ==> Contains(s, sub)
    ensures Contains(s, sub) ==> |sub| <= |s|
    decreases |s|
  {
    StartsWith(s, sub) || (|s| > 0 && Contains(s[1..], sub))
  }

  /** The scan finds `sub` exactly when it occurs somewhere in `s`. */
  lemma {:induction false} ContainsIffOccurs(s: string, sub: string)
    ensures Contains(s, sub) <==> exists i :: OccursAt(s, sub, i)
    decreases |s|
  {
    if Contains(s, sub) {
      if StartsWith(s, sub) {
        assert OccursAt(s, sub, 0);
      } else {
        ContainsIffOccurs(s[1..], sub);
        var i :| OccursAt(s[1..], sub, i);
        assert s[1..][i..i + |sub|] == s[i + 1..i + 1 + |sub|];
        assert OccursAt(s, sub, i + 1);
      }
    }
    if exists i :: OccursAt(s, sub, i) {
      var i :| OccursAt(s, sub, i);
      if i > 0 {
        assert s[1..][i - 1..i - 1 + |sub|] == s[i..i + |sub|];
        assert OccursAt(s[1..], sub, i - 1);
        ContainsIffOccurs(s[1..], sub);
      } else {
        assert StartsWith(s, sub);
      }
    }
  }

  // ---------------------------------------------------------------------------
  // trim
  // ---------------------------------------------------------------------------

  /** String.trim removes every character at or below U+0020 from both ends. */
  predicate IsTrimmable(c: char) {
    c <= ' '
  }

  /** No trimmable character at either end. */
  predicate IsTrimmed(s: string) {
    |s| == 0 || (!IsTrimmable(s[0]) && !IsTrimmable(s[|s| - 1]))
  }

  /** Every character of `s` in [lo, hi) is trimmable. */
  predicate AllTrimmable(s: string, lo: int, hi: int)
    requires 0 <= lo <= hi <= |s|
  {
    forall k :: lo <= k < hi ==> IsTrimmable(s[k])
  }

  /** The first index at or after `st` whose character String.trim keeps
      (the first loop of trim). */
  function FirstKept(s: string, st: nat): (k: nat)
    requires st <= |s|
    ensures st <= k <= |s|
    ensures AllTrimmable(s, st, k)
    ensures k == |s| || !IsTrimmable(s[k])
    decreases |s| - st
  {
    if st < |s| && IsTrimmable(s[st]) then FirstKept(s, st + 1) else st
  }

  /** The end, at most `len` and at least `st`, after dropping trimmable
      characters from the back (the second loop of trim). */
  function LastKept(s: string, st: nat, len: nat): (k: nat)
    requires st <= len <= |s|
    ensures st <= k <= len
    ensures AllTrimmable(s, k, len)
    ensures k == st || !IsTrimmable(s[k - 1])
    decreases len
  {
    if st < len && IsTrimmable(s[len - 1]) then LastKept(s, st, len - 1) else len
  }

  /** String.trim: the result is the slice s[i..i+|r|] left after stripping
      trimmable characters from both ends. */
  function Trim(s: string): (r: string)
    ensures IsTrimmed(r)
    ensures exists i :: OccursAt(s, r, i) && AllTrimmable(s, 0, i) && AllTrimmable(s, i + |r|, |s|)
  {
    var st := FirstKept(s, 0);
    var len := LastKept(s, st, |s|);
    assert OccursAt(s, s[st..len], st);
    s[st..len]
  }

  /** Trim leaves an already-trimmed string alone. */
  lemma TrimOfTrimmed(s: string)
    requires IsTrimmed(s)
    ensures Trim(s) == s
  {
  }

  /** Trim is determined by its contract: stripping any trimmable padding from a
      trimmed core yields that core. */
  lemma TrimStripsPadding(pre: string, core: string, post: string)
    requires AllTrimmable(pre, 0, |pre|) && AllTrimmable(post, 0, |post|)
    requires IsTrimmed(core)
    requires |core| > 0
    ensures Trim(pre + core + post) == core
  {
    var s := pre + core + post;
    var st := FirstKept(s, 0);
    var i := |pre|;
    var j := |pre| + |core|;
    assert s[i] == core[0];
    assert AllTrimmable(s, 0, i) by {
      forall k | 0 <= k < i ensures IsTrimmable(s[k]) { assert s[k] == pre[k]; }
    }
    assert st == i;
    var len := LastKept(s, st, |s|);
    assert s[j - 1] == core[|core| - 1];
    assert AllTrimmable(s, j, |s|) by {
      forall k | j <= k < |s| ensures IsTrimmable(s[k]) { assert s[k] == post[k - j]; }
    }
    assert len == j;
    assert s[i..j] == core;
  }

  // ---------------------------------------------------------------------------
  // split(",")
  // ---------------------------------------------------------------------------

  const Comma: char := ','

  /** Joins pieces with a comma between neighbours (the inverse of Pieces). */
  function Join(parts: seq<string>): string
    decreases |parts|
  {
    if |parts| == 0 then ""
    else if |parts| == 1 then parts[0]
    else parts[0] + [Comma] + Join(parts[1..])
  }

  predicate CommaFree(parts: seq<string>) {
    forall k :: 0 <= k < |parts| ==> Comma !in parts[k]
  }

  /** Cuts `s` at every comma, keeping every piece, empty ones included. */
  function Pieces(s: string): (r: seq<string>)
    ensures |r| >= 1
    ensures CommaFree(r)
    ensures Join(r) == s
    decreases |s|
  {
    if |s| == 0 then [""]
    else
      var rest := Pieces(s[1..]);
      if s[0] == Comma then
        assert Join([""] + rest) == [Comma] + Join(rest);
        [""] + rest
      else
        var first := [s[0]] + rest[0];
        assert [s[0]] + s[1..] == s;
        assert Join([first] + rest[1..]) == [s[0]] + Join(rest) by {
          if |rest| > 1 {
            assert ([first] + rest[1..])[1..] == rest[1..];
          }
        }
        [first] + rest[1..]
  }

  /** Pieces undoes Join: joining comma-free pieces and cutting again gives them back. */
  lemma {:induction false} PiecesOfJoin(parts: seq<string>)
    requires |parts| >= 1 && CommaFree(parts)
    ensures Pieces(Join(parts)) == parts
    decreases |parts|
  {
    if |parts| == 1 {
      PiecesAfterCommaFree(parts[0], "");
      assert parts[0] + "" == parts[0];
    } else {
      var tail := Join(parts[1..]);
      PiecesOfJoin(parts[1..]);
      assert ([Comma] + tail)[1..] == tail;
      assert Pieces([Comma] + tail) == [""] + parts[1..];
      PiecesAfterCommaFree(parts[0], [Comma] + tail);
      assert Join(parts) == parts[0] + ([Comma] + tail);
      assert parts[0] + "" == parts[0];
      assert [parts[0]] + parts[1..] == parts;
    }
  }

  /** A comma-free run at the front of a string becomes the front of its first piece. */
  lemma {:induction false} PiecesAfterCommaFree(p: string, t: string)
    requires Comma !in p
    ensures Pieces(p + t) == [p + Pieces(t)[0]] + Pieces(t)[1..]
    decreases |p|
  {
    if |p| > 0 {
      assert (p + t)[1..] == p[1..] + t;
      assert (p + t)[0] == p[0];
      PiecesAfterCommaFree(p[1..], t);
      var rest := Pieces(p[1..] + t);
      assert rest[0] == p[1..] + Pieces(t)[0];
      assert rest[1..] == Pieces(t)[1..];
      assert [p[0]] + (p[1..] + Pieces(t)[0]) == p + Pieces(t)[0];
    } else {
      assert p + t == t;
      assert p + Pieces(t)[0] == Pieces(t)[0];
      assert [Pieces(t)[0]] + Pieces(t)[1..] == Pieces(t);
    }
  }

  /** Drops the empty strings at the end of a list, as split does with limit 0. */
  function DropTrailingEmpty(parts: seq<string>): (r: seq<string>)
    ensures |r| <= |parts| && r == parts[..|r|]
    ensures forall k :: |r| <= k < |parts| ==> parts[k] == ""
    ensures |r| == 0 || r[|r| - 1] != ""
    decreases |parts|
  {
    if |parts| > 0 && parts[|parts| - 1] == "" then DropTrailingEmpty(parts[..|parts| - 1])
    else parts
  }

  /** String.split(","): a string without a comma comes back whole (even when
      it is empty); otherwise the comma-separated pieces, without the empty
      pieces at the end. */
  function Split(s: string): (r: seq<string>)
    ensures CommaFree(r)
    ensures Comma !in s ==> r == [s]
    ensures Comma in s ==> |r| <= |Pieces(s)| && r == Pieces(s)[..|r|]
    ensures Comma in s ==> forall k :: |r| <= k < |Pieces(s)| ==> Pieces(s)[k] == ""
    ensures Comma in s ==> |r| == 0 || r[|r| - 1] != ""
  {
    if Comma !in s then [s] else DropTrailingEmpty(Pieces(s))
  }

  predicate OnlyCommas(s: string) {
    forall k :: 0 <= k < |s| ==> s[k] == Comma
  }

  /** Split yields no element at all exactly when the string is one or more
      commas and nothing else. */
  lemma SplitEmptyIffOnlyCommas(s: string)
    ensures |Split(s)| == 0 <==> (|s| > 0 && OnlyCommas(s))
  {
    if Comma in s {
      var p := Pieces(s);
      PiecesAllEmptyIffOnlyCommas(s);
      var r := Split(s);
      if |r| == 0 {
        assert forall k :: 0 <= k < |p| ==> p[k] == "";
      }
      if OnlyCommas(s) {
        assert p == Pieces(s);
        assert forall k :: 0 <= k < |Pieces(s)| ==> Pieces(s)[k] == "";
      }
    } else if |s| > 0 {
      assert s[0] != Comma;
    }
  }

  lemma {:induction false} PiecesAllEmptyIffOnlyCommas(s: string)
    ensures (forall k :: 0 <= k < |Pieces(s)| ==> Pieces(s)[k] == "") <==> OnlyCommas(s)
    decreases |s|
  {
    if |s| > 0 {
      PiecesAllEmptyIffOnlyCommas(s[1..]);
      var rest := Pieces(s[1..]);
      if s[0] == Comma {
        assert Pieces(s) == [""] + rest;
        assert OnlyCommas(s) <==> OnlyCommas(s[1..]) by {
          if OnlyCommas(s[1..]) {
            forall k | 0 <= k < |s| ensures s[k] == Comma {
              if k > 0 { assert s[k] == s[1..][k - 1]; }
            }
          }
        }
        assert (forall k :: 0 <= k < |Pieces(s)| ==> Pieces(s)[k] == "")
          <==> (forall k :: 0 <= k < |rest| ==> rest[k] == "") by {
          if forall k :: 0 <= k < |rest| ==> rest[k] == "" {
            forall k | 0 <= k < |Pieces(s)| ensures Pieces(s)[k] == "" {
              if k > 0 { assert Pieces(s)[k] == rest[k - 1]; }
            }
          }
        }
      } else {
        assert Pieces(s)[0] == [s[0]] + rest[0];
        assert !OnlyCommas(s);
      }
    }
  }

  // ---------------------------------------------------------------------------
  // equalsIgnoreCase
  // ---------------------------------------------------------------------------

  const DotlessSmallI: char := '\U{0131}'
  const LongSmallS: char := '\U{017F}'
  const DottedCapitalI: char := '\U{0130}'
  const KelvinSign: char := '\U{212A}'

  predicate IsAsciiLetter(c: char) {
    'A' <= c <= 'Z' || 'a' <= c <= 'z'
  }

  /** Character.toUpperCase on the characters whose upper case is an ASCII
      letter (the ASCII letters, dotless i and long s); every other character
      is left alone. */
  function UpperCase(c: char): char {
    if 'a' <= c <= 'z' then (c as int - 32) as char
    else if c == DotlessSmallI then 'I'
    else if c == LongSmallS then 'S'
    else c
  }

  /** Character.toLowerCase on the characters whose lower case is an ASCII
      letter (the ASCII letters, capital dotted I and the Kelvin sign); every
      other character is left alone. */
  function LowerCase(c: char): char {
    if 'A' <= c <= 'Z' then (c as int + 32) as char
    else if c == DottedCapitalI then 'i'
    else if c == KelvinSign then 'k'
    else c
  }

  /** The per-character test of String.regionMatches(ignoreCase = true). With
      the case maps above it agrees with Java whenever one of the two
      characters is ASCII. */
  predicate CharsEqualIgnoreCase(a: char, b: char)
    ensures a == b ==> CharsEqualIgnoreCase(a, b)
    ensures IsAsciiLetter(a) && IsAsciiLetter(b) ==>
              (CharsEqualIgnoreCase(a, b) <==> a == b || a as int - b as int == 32 || b as int - a as int == 32)
  {
    a == b
    || UpperCase(a) == UpperCase(b)
    || LowerCase(UpperCase(a)) == LowerCase(UpperCase(b))
  }

  /** String.equalsIgnoreCase: equal lengths and every pair of characters
      matching ignoring case. */
  predicate EqualsIgnoreCase(a: string, b: string)
    ensures |a| != |b| ==> !EqualsIgnoreCase(a, b)
    ensures a == b ==> EqualsIgnoreCase(a, b)
  {
    |a| == |b| && forall k :: 0 <= k < |a| ==> CharsEqualIgnoreCase(a[k], b[k])
  }

  /** The characters that match the ASCII capital letter `t` ignoring case:
      the letter itself, its lower-case form, and the non-ASCII characters
      whose case mapping lands on it. */
  predicate SpellsCapital(c: char, t: char)
    requires 'A' <= t <= 'Z'
  {
    c == t || c == (t as int + 32) as char
    || (t == 'I' && (c == DotlessSmallI || c == DottedCapitalI))
    || (t == 'S' && c == LongSmallS)
    || (t == 'K' && c == KelvinSign)
  }

  /** Matching a capital ASCII letter ignoring case means being one of its spellings. */
  lemma CharMatchesCapitalIff(c: char, t: char)
    requires 'A' <= t <= 'Z'
    ensures CharsEqualIgnoreCase(c, t) <==> SpellsCapital(c, t)
  {
  }
}

=== FILE: resources.dfy ===
/** An optional value: a descriptor field that may be unset. */
module Options {
  datatype Option<+T> = None | Some(value: T)
}

/**
 The resource descriptors a Compute Engine listing returns, as far as the
 test-cleanup helper looks at them, the delete actions it issues, the outcome
 of a delete, and the 24-hour staleness rule.
 */
module Resources {
  import opened Options

  /** A point on the timeline, in nanoseconds since the epoch (the precision of
      java.time.Instant). Timestamps arrive already parsed. */
  type Instant = int

  const NanosPerHour: int := 3_600_000_000_000
  const DeletionThresholdHours: int := 24

  /** An instance template: its name, its creation time when the listing
      carries one, and whether the message is fully initialized. */
  datatype InstanceTemplate = InstanceTemplate(name: string, creation: Option<Instant>, initialized: bool)

  /** A virtual machine instance and its status string ("RUNNING", "STOPPED", ...). */
  datatype Instance = Instance(name: string, creation: Option<Instant>, status: string)

  /** One entry of an aggregated listing: a scope key (such as "zones/us-west1-a")
      and the instances listed under it, in listing order. */
  datatype ZoneGroup = ZoneGroup(scope: string, instances: seq<Instance>)

  /** A reservation. Its creation time may be unset in the listing. */
  datatype Reservation = Reservation(name: string, creation: Option<Instant>)

  /** A delete request the cleanup helper sends. */
  datatype Delete =
    | DeleteInstanceTemplate(project: string, name: string)
    | DeleteInstance(project: string, zone: string, name: string)
    | DeleteReservation(project: string, zone: string, name: string)

  /** What the remote service answers to a delete: done, no such resource, or
      any other failure (I/O, execution, interruption, timeout). */
  datatype DeleteOutcome = Deleted | NotFound | Failed

  /** Why a sweep stopped early. */
  datatype Failure =
    | DeleteFailure(target: Delete, outcome: DeleteOutcome)
    | UnparsableTimestamp(name: string)

  /** The deletes a sweep sent, in order, and the failure that ended it, if any. */
  datatype SweepResult = SweepResult(issued: seq<Delete>, failure: Option<Failure>)

  /** `now` moved back by the deletion threshold. */
  function ThresholdTime(now: Instant): Instant {
    now - DeletionThresholdHours * NanosPerHour
  }

  /** A resource is stale when it was created strictly before the threshold time. */
  predicate IsCreatedBeforeThresholdTime(creation: Instant, now: Instant)
    ensures IsCreatedBeforeThresholdTime(creation, now) <==> now - creation > 24 * NanosPerHour
  {
    creation < ThresholdTime(now)
  }

  /** The boundary is strict: created exactly 24 hours ago is kept, one
      nanosecond earlier is stale, and a second later is kept. */
  lemma StalenessBoundary(now: Instant)
    ensures !IsCreatedBeforeThresholdTime(now - 24 * NanosPerHour, now)
    ensures IsCreatedBeforeThresholdTime(now - 24 * NanosPerHour - 1, now)
    ensures IsCreatedBeforeThresholdTime(now - 24 * NanosPerHour - 1_000_000_000, now)
    ensures !IsCreatedBeforeThresholdTime(now - 24 * NanosPerHour + 1_000_000_000, now)
  {
  }

  /** A resource that is stale now stays stale at any later time. */
  lemma StalenessPersists(creation: Instant, now: Instant, later: Instant)
    requires now <= later
    requires IsCreatedBeforeThresholdTime(creation, now)
    ensures IsCreatedBeforeThresholdTime(creation, later)
  {
  }
}

=== FILE: test_zones.dfy ===
/**
 Configuration of the compute tests: reading an environment variable with a
 default, and picking a test zone from a comma-separated list. The process
 environment is a map from the names that are set to their values; the random
 pick is a nondeterministic choice.
 */
module TestZones {
  import opened JavaString

  const TestZonesName: string := "JAVA_DOCS_COMPUTE_TEST_ZONES"
  const DefaultZones: string := "us-central1-a,us-west1-a,asia-south1-a"
  const UnknownZone: string := "unknown"

  /** The variables set in the process environment, with their values. */
  type Environment = map<string, string>

  /** getEnvVar. An unset variable yields the default. The blank test compares
      `val.trim()` with the literal "" by reference. For a value of exactly ""
      trim has nothing to cut and hands back the value itself, a string the
      environment lookup built, so the test fails and "" is returned. For a
      longer blank value trim builds an empty string, and whether that is the
      literal object is up to the String implementation: `trimGivesLiteral`
      says which way it went. A value that is not blank is always returned. */
  function GetEnvVar(env: Environment, name: string, default: string, trimGivesLiteral: bool): (r: string)
    ensures name !in env ==> r == default
    ensures name in env && Trim(env[name]) != "" ==> r == env[name]
    ensures name in env && env[name] == "" ==> r == ""
    ensures name in env && env[name] != "" && Trim(env[name]) == "" ==> r == (if trimGivesLiteral then default else env[name])
  {
    if name !in env || (trimGivesLiteral && env[name] != "" && Trim(env[name]) == "") then default else env[name]
  }

  /** A variable set to "" is returned as "", and getZone then has the empty
      zone name as its only candidate; it never falls back to the defaults. */
  lemma EmptyVariableKept(env: Environment, trimGivesLiteral: bool)
    requires TestZonesName in env && env[TestZonesName] == ""
    ensures ZoneCandidates(GetEnvVar(env, TestZonesName, DefaultZones, trimGivesLiteral)) == [""]
  {
    EmptySettingGivesEmptyZone();
  }

  /** The zones getZone can return for a setting: each element of the comma
      split, trimmed. There are none exactly when the setting is nothing but
      commas. */
  function ZoneCandidates(zones: string): (r: seq<string>)
    ensures |r| == |Split(zones)|
    ensures forall k :: 0 <= k < |r| ==> IsTrimmed(r[k]) && Comma !in r[k]
    ensures |r| == 0 <==> |zones| > 0 && OnlyCommas(zones)
  {
    var parts := Split(zones);
    SplitEmptyIffOnlyCommas(zones);
    forall k | 0 <= k < |parts| ensures Comma !in Trim(parts[k]) {
      TrimHasNoNewCharacters(parts[k]);
    }
    seq(|parts|, k requires 0 <= k < |parts| => Trim(parts[k]))
  }

  /** Trimming only removes characters. */
  lemma TrimHasNoNewCharacters(s: string)
    ensures forall c :: c in Trim(s) ==> c in s
  {
    var r := Trim(s);
    var i :| OccursAt(s, r, i) && AllTrimmable(s, 0, i) && AllTrimmable(s, i + |r|, |s|);
    forall c | c in r ensures c in s {
      var k :| 0 <= k < |r| && r[k] == c;
      assert s[i + k] == c;
    }
  }

  /** getZone: read the setting, split it at commas, and return one element,
      trimmed, picked at random; "unknown" when the split yields nothing. */
  method GetZone(env: Environment, trimGivesLiteral: bool) returns (zone: string)
    ensures var candidates := ZoneCandidates(GetEnvVar(env, TestZonesName, DefaultZones, trimGivesLiteral));
            (|candidates| == 0 ==> zone == UnknownZone) && (|candidates| > 0 ==> zone in candidates)
    ensures var parts := Split(GetEnvVar(env, TestZonesName, DefaultZones, trimGivesLiteral));
            |parts| > 0 ==> exists k :: 0 <= k < |parts| && zone == Trim(parts[k])
  {
    var zones := GetEnvVar(env, TestZonesName, DefaultZones, trimGivesLiteral);
    var parsedZones := Split(zones);
    if |parsedZones| == 0 {
      return UnknownZone;
    }
    var pick :| 0 <= pick < |parsedZones|;
    zone := Trim(parsedZones[pick]);
    assert zone == ZoneCandidates(zones)[pick];
  }

  /** Joining two or more comma-free names, the last one non-empty, and
      splitting again gives the names back. */
  lemma SplitOfJoin(names: seq<string>)
    requires |names| >= 2 && CommaFree(names)
    requires names[|names| - 1] != ""
    ensures Split(Join(names)) == names
  {
    var zones := Join(names);
    PiecesOfJoin(names);
    assert zones == names[0] + [Comma] + Join(names[1..]);
    assert zones[|names[0]|] == Comma;
  }

  /** The candidates of a setting whose split and trimmed elements are known. */
  lemma CandidatesAre(zones: string, parts: seq<string>, names: seq<string>)
    requires Split(zones) == parts && |parts| == |names|
    requires forall k :: 0 <= k < |parts| ==> Trim(parts[k]) == names[k]
    ensures ZoneCandidates(zones) == names
  {
  }

  /** A setting of one or more non-empty trimmed names joined by commas offers
      exactly those names; a single name needs no comma. */
  lemma CandidatesOfJoin(names: seq<string>)
    requires |names| >= 1
    requires CommaFree(names)
    requires forall k :: 0 <= k < |names| ==> |names[k]| > 0 && IsTrimmed(names[k])
    ensures ZoneCandidates(Join(names)) == names
  {
    if |names| == 1 {
      assert Join(names) == names[0] && Comma !in names[0];
      assert Split(Join(names)) == names;
    } else {
      SplitOfJoin(names);
    }
    forall k | 0 <= k < |names| ensures Trim(names[k]) == names[k] {
      TrimOfTrimmed(names[k]);
    }
    CandidatesAre(Join(names), names, names);
  }

  /** The default setting is the three default zones joined by commas. */
  lemma DefaultZonesJoined()
    ensures Join(["us-central1-a", "us-west1-a", "asia-south1-a"]) == DefaultZones
  {
  }

  /** With the variable unset, the candidates are the three default zones. */
  lemma DefaultCandidates(env: Environment, trimGivesLiteral: bool)
    requires TestZonesName !in env
    ensures ZoneCandidates(GetEnvVar(env, TestZonesName, DefaultZones, trimGivesLiteral))
         == ["us-central1-a", "us-west1-a", "asia-south1-a"]
  {
    var names := ["us-central1-a", "us-west1-a", "asia-south1-a"];
    DefaultZonesJoined();
    assert CommaFree(names) by {
      assert Comma !in names[0] && Comma !in names[1] && Comma !in names[2];
    }
    CandidatesOfJoin(names);
  }

  /** A setting "a,b,c" offers exactly "a", "b" and "c". */
  lemma ThreeZoneSetting()
    ensures ZoneCandidates("a,b,c") == ["a", "b", "c"]
  {
    assert Join(["a", "b", "c"]) == "a,b,c";
    CandidatesOfJoin(["a", "b", "c"]);
  }

  lemma SplitPadded(a: string, b: string)
    requires Comma !in a && Comma !in b && |b| > 0
    ensures Split(" " + a + " , " + b + " ") == [" " + a + " ", " " + b + " "]
  {
    var left := " " + a + " ";
    var right := " " + b + " ";
    assert Comma !in left && Comma !in right;
    assert Join([left, right]) == " " + a + " , " + b + " ";
    SplitOfJoin([left, right]);
  }

  /** Blanks around the commas are trimmed away: " a , b " offers "a" and "b". */
  lemma PaddedSetting(a: string, b: string)
    requires |a| > 0 && IsTrimmed(a) && Comma !in a
    requires |b| > 0 && IsTrimmed(b) && Comma !in b
    ensures ZoneCandidates(" " + a + " , " + b + " ") == [a, b]
  {
    var parts := [" " + a + " ", " " + b + " "];
    SplitPadded(a, b);
    TrimStripsPadding(" ", a, " ");
    TrimStripsPadding(" ", b, " ");
    assert Trim(parts[0]) == a && Trim(parts[1]) == b;
    CandidatesAre(" " + a + " , " + b + " ", parts, [a, b]);
  }

  /** A lone comma leaves nothing to pick from: getZone answers "unknown". */
  lemma LoneCommaHasNoCandidate()
    ensures ZoneCandidates(",") == []
  {
  }

  /** An empty setting is not "unknown": Java's split returns the empty string
      itself, so the empty zone name is the only candidate. */
  lemma EmptySettingGivesEmptyZone()
    ensures ZoneCandidates("") == [""]
  {
  }
}
